=== FILE: README.md ===
# Virtual list: window, rows, selections and press-and-hold scrolling

A Dafny model of the logic of a virtual list of 10,001 selectable rows
(`script.js`). Only the rows near the scroll offset are rendered: a pure
window calculator turns the offset into a half-open index range, a row
view-model is built for each index from a selection store, the store writes
every change through to a persisted copy and is cleared by a reset button,
and a custom scrollbar starts a press-and-hold continuous scroll whose frames
move the offset until a bound is reached or the pointer is released.

Modules:

- `Window` (`window.dfy`): the table's constants, the window formula
  `WindowAt(offset)` as written, the render loop `RenderIndices`, and the
  window `BufferedWindowAt(offset)` that also buffers below the viewport
  (see "## Findings"), with bounds, width, coverage, monotonicity and
  concrete offsets.
- `SelectionStore` (`selection.dfy`): the map from row index to option with
  its persisted copy; `Load`, `Get`, `Set`, `Clear` and the change handler.
- `Rows` (`rows.dfy`): the row view-model `CreateRow` and the render pass
  `RenderRows` over a range of indices.
- `Scroll` (`scroll.dfy`): the scroll session `Idle | Scrolling(dir)`,
  `Start`, `Stop`, the per-frame `Step`, the press hit-test `Classify` and
  the mouse-down transition.
- `Widget` (`widget.dfy`): the whole widget driven by page events, with the
  invariant every event preserves.
- `Wrappers` (`wrappers.dfy`): the `Option` type used for the persisted copy.

Modelling choices:

- Scroll offsets are integers. Dafny's `/` by the positive row height rounds
  toward negative infinity, exactly as `Math.floor(scrollTop / ROW_HEIGHT)`.
- The exclusive end of the window is clamped to `TOTAL_ROWS` (10001), so a
  window is at most 25 rows wide and row 10000 is the last one ever
  rendered; the model keeps this clamp as written. The spacer is
  `TOTAL_ROWS * ROW_HEIGHT` high and row `i` sits at `i * ROW_HEIGHT`, so
  rows 1 to 10000 exactly fill it below an empty first slot.
- The persisted `localStorage` entry is an `Option<map<int, string>>` copy of
  the in-memory map (`None` once removed), not JSON text. Keys are row
  indices as integers rather than the decimal strings script.js uses. A
  malformed entry makes `JSON.parse` throw at script.js:17; that start-up
  failure is not modelled.
- A row's option follows `state[index] || "1"`: an absent key and a stored
  empty string both read as `"1"`. A stored value outside `"1"`, `"2"`, `"3"`
  is shown with no radio checked.
- One animation frame moves the offset by an abstract `delta: nat` pixels in
  place of `SCROLL_SPEED * deltaTime / 16`.
- A track press jumps to a `trackTarget` offset given with the event, and a
  native scroll (wheel, keyboard, scrollbar thumb) to a `target` offset; the
  viewport clamps any assigned offset into `[0, maxScroll]` (`ClampOffset`).
- The render that a scroll event schedules for the next frame is the
  explicit event `RenderFrame`.
- The widget renders the rows of `WindowAt`, the formula exactly as
  script.js writes it. `BufferedWindowAt`, the window with `BUFFER` rows on
  both sides of the viewport, is the corrected definition of the finding
  below and stands beside it.

## Model

| member | source | states |
|---|---|---|
| Window.WindowAt | script.js:54-55 | the window starts at row 1 or later and no more than `BUFFER` rows before the first visible row, ends at `TOTAL_ROWS` or earlier, and is at most `VISIBLE_ROWS + BUFFER` wide |
| Window.RenderIndices | script.js:61-63 | the render loop visits the indices `start, start+1, ..., end-1` in strictly ascending order: every visited index is in the range and every index of the range is visited |
| Window.WindowFullWidth | script.js:55 | the window is exactly 25 rows wide whenever `start + 25 <= TOTAL_ROWS` |
| Window.WindowNonEmpty | script.js:54-55 | for every offset up to the full virtual height the window holds at least one row |
| Window.WindowCoversVisible | script.js:54-55 | every row visible at the offset, from `max(1, f)` up to `min(f + VISIBLE_ROWS, TOTAL_ROWS)` with `f = floor(offset / ROW_HEIGHT)`, is inside the window |
| Window.WindowMonotone | script.js:54-55 | both the start and the end of the window are non-decreasing in the offset |
| Window.LastRowNeverRendered | script.js:55-61 | row `TOTAL_ROWS` is never in the window; every rendered index lies in `[1, TOTAL_ROWS)` |
| Window.WindowAtTop | script.js:54-55 | offset 0 renders `[1, 26)` |
| Window.WindowAtRow100 | script.js:54-55 | offset 4000 renders `[95, 120)` |
| Window.WindowAtBottom | script.js:54-55 | at the largest offset of a viewport of `VISIBLE_ROWS` rows (800 pixels) the window is `[9976, 10001)` |
| Window.BottomReachable | script.js:83 | at the largest offset `TOTAL_ROWS * ROW_HEIGHT - clientHeight` of any viewport up to 800 pixels high, the window ends at `TOTAL_ROWS` and so renders row 10000 |
| Window.WindowNoRowsBelow | script.js:8 | away from both ends of the table the window as written ends right after the 20 rows starting at the first visible row: none of the buffer rows the constant's comment announces below the viewport is rendered |
| Window.WindowMissesPartlyVisibleRow | script.js:54-55 | at offset 4020 row 120 is partly inside an 800-pixel viewport but outside the window as written |
| Window.BufferedWindowAt | script.js:8 | the window with `BUFFER` rows on both sides has the same start as the formula as written, ends no earlier and no later than `TOTAL_ROWS`, and is at most `VISIBLE_ROWS + 2 * BUFFER` wide |
| Window.BufferedWindowCoversViewport | script.js:8 | every row of the table that overlaps an 800-pixel viewport, even partly, is in the buffered window |
| Window.BufferedWindowBelow | script.js:8 | the buffered window reaches `BUFFER` rows past the 20 rows starting at the first visible row, unless the table ends first |
| Window.BufferedWindowAt4020 | script.js:8 | at offset 4020 the buffered window is `[95, 125)` and renders row 120 |
| SelectionStore.Load | script.js:17 | start-up uses the persisted map when there is one and the empty map otherwise, and the result is consistent with its persisted copy |
| SelectionStore.Get | script.js:33 | a row reads its stored value when that value is non-empty, and `"1"` when the key is absent or holds the empty string |
| SelectionStore.Set | script.js:150-152 | after a change of row `i` to `v`, `i` maps to `v`, every other key keeps its value, no key is removed, and the persisted copy equals the in-memory map |
| SelectionStore.Clear | script.js:158-159 | reset leaves the map empty and removes the persisted copy |
| SelectionStore.OnChange | script.js:148-154 | a radio change makes its row read the new value, keeps every other key and every other row's reading, adds no key but its own, and writes through; any other change event leaves the store untouched |
| SelectionStore.GetAfterSet | script.js:150-151 | after a change of row `i` to `v`, row `i` reads `v` (or `"1"` if `v` is empty) and every other row reads what it read before |
| SelectionStore.SetKeepsConsistent | script.js:151-152 | every write keeps the persisted copy equal to the in-memory map |
| SelectionStore.SetKeepsValid | script.js:148-154 | a change with a table row index and one of the three radio values keeps every key a table row and every value a radio option |
| SelectionStore.ReloadRoundTrip | script.js:17 | a reload from the persisted copy of a consistent store reads back the same map and the same option for every row |
| SelectionStore.ReloadAfterChangeScenario | script.js:150-152 | choosing option 2 in row 5 and reloading reads `"2"` for row 5 |
| SelectionStore.ClearReadsDefault | script.js:157-159 | after a reset every row reads `"1"` |
| SelectionStore.ClearIdempotent | script.js:157-159 | resetting twice equals resetting once, and a reload after a reset starts empty |
| SelectionStore.NeverWrittenReadsDefault | script.js:17 | a row absent from the loaded map reads `"1"` |
| Rows.CreateRow | script.js:31-46 | a row view-model carries its index, sits at `index * ROW_HEIGHT`, shows the store's option for it, and radio `k` is checked exactly when it carries that option |
| Rows.ChecksFor | script.js:41-43 | radio `k` of a row is checked exactly when the row's option equals option `k` |
| Rows.CheckedIffOption | script.js:41-43 | a row has exactly one radio checked if and only if its option is one of `"1"`, `"2"`, `"3"`, and none checked otherwise |
| Rows.ValidStoreChecksOne | script.js:41-43 | under a valid store every row has exactly one radio checked |
| Rows.RowsFor | script.js:61-63 | a render pass yields as many rows as the range is wide |
| Rows.RenderRows | script.js:58-64 | the render pass builds, in order, the view-model of each index of the range from the store, and an index has a rendered row exactly when it lies in the range |
| Rows.RowsAreInTable | script.js:31-65 | rendering a range inside the table gives table rows below `TOTAL_ROWS`, and successive rendered rows are at least one row height apart so none overlap |
| Scroll.Start | script.js:71-72 | starting from idle begins scrolling in the requested direction; starting while a scroll runs changes nothing; the offset is untouched |
| Scroll.Stop | script.js:111-116 | stopping leaves the session idle and the offset untouched |
| Scroll.Step | script.js:76-103 | an idle frame does nothing; an up frame ends the session exactly when `offset - delta <= 0` and then pins the offset to 0, otherwise subtracts `delta`; a down frame ends it exactly when `offset + delta >= maxScroll` and then pins to `maxScroll`, otherwise adds `delta` |
| Scroll.StopIdempotent | script.js:111-116 | stopping twice equals stopping once, and stopping an idle session is a no-op |
| Scroll.StepInBounds | script.js:85-99 | a frame keeps the offset within `[0, maxScroll]` |
| Scroll.FramesInBounds | script.js:76-103 | any number of frames keeps the offset within `[0, maxScroll]` |
| Scroll.StepProgress | script.js:85-99 | a positive frame moves a running session strictly in its direction unless it is already at the bound |
| Scroll.UpReachesTop | script.js:85-91 | holding up with frames of at least one pixel ends idle at offset 0 within `offset` frames, and later frames change nothing |
| Scroll.DownReachesBottom | script.js:92-98 | holding down with frames of at least one pixel ends idle at `maxScroll` within `maxScroll - offset` frames, and later frames change nothing |
| Scroll.UpAtTopStopsAtOnce | script.js:85-91 | pressing up at offset 0 stops on the first frame with the offset still 0 |
| Scroll.Classify | script.js:119-137 | a press is content exactly when left of the scrollbar, up arrow exactly when on the scrollbar within 17 pixels of the top, down arrow exactly when on the scrollbar, below that and within 17 pixels of the bottom, and track otherwise; the four cases are exclusive |
| Scroll.OverlappingArrowsPreferUp | script.js:129-136 | on a viewport too short for two arrows a press in both arrow zones is the up arrow |
| Scroll.ClampOffset | script.js:143 | an offset assigned to the viewport is stored within its scrollable extent and unchanged when already inside |
| Scroll.MouseDown | script.js:119-145 | a content press changes nothing, an arrow press starts a scroll in that direction, and a track press moves the offset to the clamped target keeping the session |
| Widget.RenderAt | script.js:52-65 | a render pass at an offset gives, in order, the view-model of each index of the window, each inside the window and showing the store's option for its index |
| Widget.Mount | script.js:172 | page load starts idle at offset 0 with the persisted selections and the first window rendered |
| Widget.Handle | script.js:119-170 | a press classifies and applies the mouse-down transition; release or leave stops the session in place and keeps the rows; a frame applies one scroll step; a native scroll moves to the clamped target; frames, native scrolls and changes do not re-render; a scheduled render and a reset leave the rows matching the window and store and keep the scroll offset and session; a change goes through the change handler and keeps the scroll state; reset empties the store and removes the persisted copy; no other event touches the store |
| Widget.HandlePreservesInv | script.js:76-170 | every event keeps the offset within `[0, maxScroll]` and the persisted copy consistent with memory |
| Widget.MountRowsInTable | script.js:172 | the rows rendered at page load are all table rows below `TOTAL_ROWS` |
| Widget.HandleKeepsValid | script.js:148-154 | while every change comes from a radio of a rendered row with one of the values `"1"`, `"2"`, `"3"`, every event keeps the store's keys table rows and its values radio options, and keeps every rendered row a table row |
| Widget.MouseDownRenders | script.js:138-144 | a track press re-renders at the new offset at once; other presses leave the rows as they were |
| Widget.NativeScrollThenRender | script.js:164-166 | a native scroll followed by the render it schedules shows the window of the clamped new offset |
| Widget.ResetShowsDefaults | script.js:157-160 | after a reset every rendered row shows `"1"` with only its first radio checked |
| Widget.ChangeAffectsOnlyItsRow | script.js:148-154 | a change in row `i` alters the view-model of row `i` only |

## Findings

| source | as written | input that shows it | evidently intended | confidence | as-written member | corrected member |
|---|---|---|---|---|---|---|
| script.js:8 | `BUFFER` is described as extra rows rendered above and below the viewport, but the end `min(TOTAL_ROWS, start + VISIBLE_ROWS + BUFFER)` with `start = f - BUFFER` stops at `f + VISIBLE_ROWS`, so no row below the viewport is buffered and a partly visible bottom row is missed | offset 4020 with an 800-pixel viewport: row 120 (top at 4800) is partly visible, yet the window is `[95, 120)` | `BUFFER` rows on both sides: end `min(TOTAL_ROWS, start + VISIBLE_ROWS + 2 * BUFFER)`, which renders every row overlapping the viewport | medium, not executed | Window.WindowMissesPartlyVisibleRow | Window.BufferedWindowAt |

## Left out

- DOM construction (`innerHTML`, fragments, appending and removing nodes, the spacer height and row styles other than `top`): rendering glue; the model produces the list of view-models the DOM would show.
- `localStorage` and JSON text: I/O; the persisted entry is a map copy. A malformed entry makes `JSON.parse` throw at start-up, which is not modelled, and JSON values other than strings are not modelled.
- The decimal-string keys built by `name.replace("row", "")`: keys are integer row indices.
- `requestAnimationFrame`, `cancelAnimationFrame` and `performance.now`: frame scheduling and floating-point time; a frame is an explicit event with an integer `delta`.
- Scroll.Step: fractional offsets and the browser's rounding of `scrollTop` are not modelled; offsets and deltas are integers.
- The track-press ratio `(clientY - top - 17) / trackHeight` times the extent: floating-point geometry from `getBoundingClientRect` and `clientHeight`; the press carries its target offset.
- Scroll.ClampOffset: is the viewport's behaviour on assignment, not code of the widget.
- The coalescing of native scroll events into one render per frame: frame scheduling; the scheduled render is the event `RenderFrame`, and the native scroll that precedes it is the event `NativeScroll`.
- Resizing the viewport: `clientHeight` is re-read on every frame, but the model fixes it per widget, because a resize is not an event the widget handles; every frame uses the `maxScroll` of that fixed height.
- Widget.Mount: assumes the page starts at offset 0; a browser that restores the previous scroll position is not modelled.
- Widget.Handle: a radio change does not rebuild the rows (the browser flips the radio itself), so the model states nothing about `rows` after a change.
- Event wiring, the mount-point check that makes the widget inert, and the unused `isIE` flag: page bootstrap.

=== FILE: rows.dfy ===
/** The row view-models the renderer builds: one per index of the window,
    each positioned absolutely and showing the stored option. */
module Rows {
  import Window
  import opened SelectionStore

  /** What one rendered row shows: its label index, its top edge in pixels,
      the option it reflects and, per radio in `Options` order, whether that
      radio is checked. */
  datatype RowView = RowView(index: int, top: int, selected: string, checked: seq<bool>)

  /** Radio `k` of a row is checked exactly when it carries the row's option. */
  predicate ChecksMatch(row: RowView) {
    |row.checked| == |Options| &&
    forall k :: 0 <= k < |Options| ==> (row.checked[k] <==> row.selected == Options[k])
  }

  /** Exactly one radio of the row is checked. */
  predicate ExactlyOneChecked(row: RowView) {
    exists k :: 0 <= k < |row.checked| && row.checked[k] &&
      forall j :: 0 <= j < |row.checked| && row.checked[j] ==> j == k
  }

  /** The view-model of row `index` under store `s`. */
  function CreateRow(index: int, s: Store): (row: RowView)
    ensures row.index == index
    ensures row.top == index * Window.RowHeight
    ensures row.selected == Get(s, index)
    ensures ChecksMatch(row)
  {
    var selected := Get(s, index);
    RowView(index, index * Window.RowHeight, selected, ChecksFor(selected))
  }

  /** The radios of a row showing `sel`. */
  function ChecksFor(sel: string): (c: seq<bool>)
    ensures |c| == |Options|
    ensures forall k :: 0 <= k < |Options| ==> (c[k] <==> sel == Options[k])
  {
    [sel == Options[0], sel == Options[1], sel == Options[2]]
  }

  /** A row whose option is one of the three radios has exactly one of them
      checked; a row holding any other value has none checked. */
  lemma CheckedIffOption(index: int, s: Store)
    ensures Get(s, index) in Options <==> ExactlyOneChecked(CreateRow(index, s))
    ensures Get(s, index) !in Options ==> forall k :: 0 <= k < |Options| ==> !CreateRow(index, s).checked[k]
  {
    var row := CreateRow(index, s);
    var c := row.checked;
    if k :| 0 <= k < |Options| && row.selected == Options[k] {
      assert c[k];
      forall j | 0 <= j < |c| && c[j]
        ensures j == k
      {
        assert Options[j] == Options[k];
      }
    } else {
      forall k | 0 <= k < |c|
        ensures !c[k]
      {
      }
    }
  }

  /** In a valid store every row has exactly one radio checked. */
  lemma ValidStoreChecksOne(index: int, s: Store)
    requires Valid(s)
    ensures ExactlyOneChecked(CreateRow(index, s))
  {
    CheckedIffOption(index, s);
  }

  /** The rows of a render pass over range `r`, one per index, in order. */
  function RowsFor(r: Window.Range, s: Store): (rows: seq<RowView>)
    ensures |rows| == r.Count()
  {
    seq(r.Count(), k => CreateRow(r.start + k, s))
  }

  /** The render pass: rebuild every row of range `r` from scratch. */
  method RenderRows(r: Window.Range, s: Store) returns (rows: seq<RowView>)
    ensures rows == RowsFor(r, s)
    ensures forall k :: 0 <= k < |rows| ==> rows[k].index == r.start + k
    ensures forall k :: 0 <= k < |rows| ==> rows[k].selected == Get(s, rows[k].index)
    ensures forall i :: r.Contains(i) <==> exists k :: 0 <= k < |rows| && rows[k].index == i
  {
    rows := [];
    var i := r.start;
    while i < r.end
      invariant r.start <= i <= Window.Max(r.start, r.end)
      invariant |rows| == i - r.start
      invariant forall k :: 0 <= k < |rows| ==> rows[k] == CreateRow(r.start + k, s)
    {
      rows := rows + [CreateRow(i, s)];
      i := i + 1;
    }
    assert |rows| == r.Count();
    forall i | r.Contains(i)
      ensures exists k :: 0 <= k < |rows| && rows[k].index == i
    {
      assert rows[i - r.start].index == i;
    }
  }

  /** Rendering a range within the table (as every window is) gives rows of
      the table other than the last, each at its own index times the row
      height, never overlapping one another. */
  lemma RowsAreInTable(r: Window.Range, s: Store)
    requires 1 <= r.start && r.end <= Window.TotalRows
    ensures forall k :: 0 <= k < |RowsFor(r, s)| ==>
              1 <= RowsFor(r, s)[k].index < Window.TotalRows
    ensures forall j, k :: 0 <= j < k < |RowsFor(r, s)| ==>
              RowsFor(r, s)[j].top + Window.RowHeight <= RowsFor(r, s)[k].top
  {
    var rows := RowsFor(r, s);
    assert forall k :: 0 <= k < |rows| ==> rows[k] == CreateRow(r.start + k, s);
    forall j, k | 0 <= j < k < |rows|
      ensures rows[j].top + Window.RowHeight <= rows[k].top
    {
      assert rows[k].index == rows[j].index + (k - j);
      assert rows[k].top == rows[j].top + (k - j) * Window.RowHeight;
    }
  }
}

=== FILE: scroll.dfy ===
/** The press-and-hold scroll controller: a session that is either idle or
    scrolling in one direction, advanced once per animation frame, and the
    hit-test that decides what a press on the viewport's scrollbar means. */
module Scroll {
  import Window

  datatype Direction = Up | Down

  /** At most one continuous scroll runs at a time. */
  datatype Session = Idle | Scrolling(dir: Direction)

  /** The viewport's scroll offset together with the scroll session. */
  datatype Scroller = Scroller(offset: int, session: Session)

  /** Height of each scrollbar arrow, in pixels. */
  const ArrowHeight: int := 17

  predicate InBounds(s: Scroller, maxScroll: int) {
    0 <= s.offset <= maxScroll
  }

  /** Begin a continuous scroll; a request while one is running is ignored. */
  function Start(s: Scroller, dir: Direction): (t: Scroller)
    ensures t.offset == s.offset
    ensures t.session.Scrolling?
    ensures s.session.Scrolling? ==> t == s
    ensures s.session.Idle? ==> t.session == Scrolling(dir)
  {
    if s.session.Scrolling? then s else s.(session := Scrolling(dir))
  }

  /** End the continuous scroll, if any; the offset stays where it is. */
  function Stop(s: Scroller): (t: Scroller)
    ensures t.offset == s.offset
    ensures t.session.Idle?
  {
    s.(session := Idle)
  }

  /** One animation frame: move the offset by `delta` pixels in the session's
      direction, clamped to `[0, maxScroll]`; reaching a bound pins the offset
      to it and ends the session. An idle session does nothing. */
  function Step(s: Scroller, maxScroll: int, delta: nat): (t: Scroller)
    ensures s.session.Idle? ==> t == s
    ensures t.session.Idle? || t.session == s.session
    ensures s.session == Scrolling(Up) ==>
              (t.session.Idle? <==> s.offset - delta <= 0) &&
              (t.session.Idle? ==> t.offset == 0) &&
              (t.session.Scrolling? ==> t.offset == s.offset - delta)
    ensures s.session == Scrolling(Down) ==>
              (t.session.Idle? <==> s.offset + delta >= maxScroll) &&
              (t.session.Idle? ==> t.offset == maxScroll) &&
              (t.session.Scrolling? ==> t.offset == s.offset + delta)
  {
    match s.session
    case Idle => s
    case Scrolling(Up) =>
      var next := Window.Max(0, s.offset - delta);
      if next <= 0 then Scroller(0, Idle) else s.(offset := next)
    case Scrolling(Down) =>
      var next := Window.Min(maxScroll, s.offset + delta);
      if next >= maxScroll then Scroller(maxScroll, Idle) else s.(offset := next)
  }

  /** `n` consecutive animation frames of `delta` pixels each. */
  function Frames(s: Scroller, maxScroll: int, delta: nat, n: nat): Scroller
    decreases n
  {
    if n == 0 then s else Frames(Step(s, maxScroll, delta), maxScroll, delta, n - 1)
  }

  /** Stopping is idempotent, and stopping an idle session changes nothing. */
  lemma StopIdempotent(s: Scroller)
    ensures Stop(Stop(s)) == Stop(s)
    ensures s.session.Idle? ==> Stop(s) == s
  {
  }

  /** A frame never moves the offset out of the scrollable extent. */
  lemma StepInBounds(s: Scroller, maxScroll: int, delta: nat)
    requires InBounds(s, maxScroll)
    ensures InBounds(Step(s, maxScroll, delta), maxScroll)
  {
  }

  /** Any number of frames keeps the offset in the scrollable extent. */
  lemma {:induction false} FramesInBounds(s: Scroller, maxScroll: int, delta: nat, n: nat)
    requires InBounds(s, maxScroll)
    ensures InBounds(Frames(s, maxScroll, delta, n), maxScroll)
    decreases n
  {
    if n > 0 {
      StepInBounds(s, maxScroll, delta);
      FramesInBounds(Step(s, maxScroll, delta), maxScroll, delta, n - 1);
    }
  }

  /** A positive frame strictly moves a running session in its direction. */
  lemma StepProgress(s: Scroller, maxScroll: int, delta: nat)
    requires s.session.Scrolling? && delta > 0
    ensures s.session.dir == Up ==> Step(s, maxScroll, delta).offset < s.offset || s.offset <= 0
    ensures s.session.dir == Down ==> Step(s, maxScroll, delta).offset > s.offset || s.offset >= maxScroll
  {
  }

  /** Holding the up arrow with frames of at least one pixel reaches the top
      and ends the session within `offset` frames; further frames are idle. */
  lemma {:induction false} UpReachesTop(s: Scroller, maxScroll: int, delta: nat, n: nat)
    requires s.session == Scrolling(Up) && delta >= 1
    requires n >= s.offset && n >= 1
    ensures Frames(s, maxScroll, delta, n) == Scroller(0, Idle)
    decreases n
  {
    var t := Step(s, maxScroll, delta);
    if t.session.Idle? {
      IdleFramesFixed(t, maxScroll, delta, n - 1);
    } else {
      UpReachesTop(t, maxScroll, delta, n - 1);
    }
  }

  /** Holding the down arrow reaches `maxScroll` and ends the session within
      `maxScroll - offset` frames. */
  lemma {:induction false} DownReachesBottom(s: Scroller, maxScroll: int, delta: nat, n: nat)
    requires s.session == Scrolling(Down) && delta >= 1
    requires n >= maxScroll - s.offset && n >= 1
    ensures Frames(s, maxScroll, delta, n) == Scroller(maxScroll, Idle)
    decreases n
  {
    var t := Step(s, maxScroll, delta);
    if t.session.Idle? {
      IdleFramesFixed(t, maxScroll, delta, n - 1);
    } else {
      DownReachesBottom(t, maxScroll, delta, n - 1);
    }
  }

  /** Frames of an idle session change nothing. */
  lemma {:induction false} IdleFramesFixed(s: Scroller, maxScroll: int, delta: nat, n: nat)
    requires s.session.Idle?
    ensures Frames(s, maxScroll, delta, n) == s
    decreases n
  {
    if n > 0 {
      IdleFramesFixed(Step(s, maxScroll, delta), maxScroll, delta, n - 1);
    }
  }

  /** Pressing the up arrow at the very top pins the offset to 0 and returns
      to idle on the first frame, without moving. */
  lemma UpAtTopStopsAtOnce(maxScroll: int, delta: nat)
    ensures Step(Start(Scroller(0, Idle), Up), maxScroll, delta) == Scroller(0, Idle)
  {
  }

  /** The bounding box of the viewport in client coordinates. */
  datatype Rect = Rect(top: int, right: int, bottom: int)

  /** What a press at `(x, y)` on the viewport hits. */
  datatype Hit = Content | UpArrow | DownArrow | Track

  /** Classify a press: left of the scrollbar is content; otherwise the top
      arrow, then the bottom arrow, then the track, tested in that order. */
  function Classify(x: int, y: int, rect: Rect, scrollbarWidth: int): (h: Hit)
    ensures h == Content <==> x <= rect.right - scrollbarWidth
    ensures h == UpArrow <==> x > rect.right - scrollbarWidth && y <= rect.top + ArrowHeight
    ensures h == DownArrow <==>
              x > rect.right - scrollbarWidth && y > rect.top + ArrowHeight && y >= rect.bottom - ArrowHeight
    ensures h == Track <==>
              x > rect.right - scrollbarWidth && rect.top + ArrowHeight < y < rect.bottom - ArrowHeight
  {
    if x <= rect.right - scrollbarWidth then Content
    else if y <= rect.top + ArrowHeight then UpArrow
    else if y >= rect.bottom - ArrowHeight then DownArrow
    else Track
  }

  /** On a viewport too short for two arrows, a press in both arrow zones is
      taken as the up arrow. */
  lemma OverlappingArrowsPreferUp(x: int, y: int, rect: Rect, scrollbarWidth: int)
    requires x > rect.right - scrollbarWidth
    requires y <= rect.top + ArrowHeight && y >= rect.bottom - ArrowHeight
    ensures Classify(x, y, rect, scrollbarWidth) == UpArrow
  {
  }

  /** The viewport stores any assigned offset clamped into its scrollable
      extent `[0, maxScroll]` (just 0 when the content is shorter than the
      viewport). */
  function ClampOffset(v: int, maxScroll: int): (r: int)
    ensures 0 <= r
    ensures r <= Window.Max(0, maxScroll)
    ensures 0 <= v <= maxScroll ==> r == v
    ensures v < 0 ==> r == 0
    ensures 0 <= maxScroll < v ==> r == maxScroll
  {
    Window.Max(0, Window.Min(maxScroll, v))
  }

  /** A press on the viewport: content presses are ignored, arrow presses
      start a continuous scroll, and a track press jumps to `trackTarget`
      (the proportional position computed from the press). */
  function MouseDown(s: Scroller, hit: Hit, trackTarget: int, maxScroll: int): (t: Scroller)
    ensures hit == Content ==> t == s
    ensures hit == UpArrow ==> t == Start(s, Up)
    ensures hit == DownArrow ==> t == Start(s, Down)
    ensures hit == Track ==> t.session == s.session && t.offset == ClampOffset(trackTarget, maxScroll)
  {
    match hit
    case Content => s
    case UpArrow => Start(s, Up)
    case DownArrow => Start(s, Down)
    case Track => s.(offset := ClampOffset(trackTarget, maxScroll))
  }
}

=== FILE: selection.dfy ===
/** The selection store: the option chosen in each row, kept in memory and
    written through to a persisted copy that survives a reload. */
module SelectionStore {
  import opened Wrappers
  import Window

  /** The option a row shows when nothing (or the empty string) is stored. */
  const DefaultOption: string := "1"
  /** The three radio options of every row, in display order. */
  const Options: seq<string> := ["1", "2", "3"]

  /** The in-memory map from row index to option, and the persisted copy of
      it: `None` once the persisted entry has been removed (or before one was
      ever written). */
  datatype Store = Store(state: map<int, string>, persisted: Option<map<int, string>>)

  /** The persisted copy is a faithful image of memory: either the whole map,
      or absent while memory is still empty. */
  predicate Consistent(s: Store) {
    s.persisted == Some(s.state) || (s.persisted.None? && s.state == map[])
  }

  /** Only rows of the table are keys, and only radio options are values. */
  predicate Valid(s: Store) {
    forall i :: i in s.state ==> 1 <= i <= Window.TotalRows && s.state[i] in Options
  }

  /** Start-up: the persisted map if there is one, otherwise an empty map. */
  function Load(blob: Option<map<int, string>>): (s: Store)
    ensures Consistent(s)
    ensures s.persisted == blob
    ensures blob.None? ==> s.state == map[]
    ensures blob.Some? ==> s.state == blob.value
  {
    Store(blob.GetOr(map[]), blob)
  }

  /** The option row `i` shows: the stored value, unless it is absent or the
      empty string, in which case the default. */
  function Get(s: Store, i: int): (v: string)
    ensures v != ""
    ensures i in s.state && s.state[i] != "" ==> v == s.state[i]
    ensures i in s.state && s.state[i] == "" ==> v == DefaultOption
    ensures i !in s.state ==> v == DefaultOption
  {
    if i in s.state && s.state[i] != "" then s.state[i] else DefaultOption
  }

  /** Record option `v` for row `i` and write the whole map through to the
      persisted copy. */
  function Set(s: Store, i: int, v: string): (t: Store)
    ensures t.state.Keys == s.state.Keys + {i}
    ensures i in t.state && t.state[i] == v
    ensures forall j :: j in s.state && j != i ==> j in t.state && t.state[j] == s.state[j]
    ensures t.persisted == Some(t.state)
  {
    var state := s.state[i := v];
    Store(state, Some(state))
  }

  /** Reset: remove the persisted copy and forget every selection. */
  function Clear(s: Store): (t: Store)
    ensures t.state == map[]
    ensures t.persisted.None?
    ensures Consistent(t) && Valid(t)
  {
    Store(map[], None)
  }

  /** A change event from the table body: a radio of row `index` that now
      holds `value`, or any other input, which is ignored. */
  datatype ChangeEvent = RadioChange(index: int, value: string) | OtherChange

  /** The table body's change handler. */
  function OnChange(s: Store, e: ChangeEvent): (t: Store)
    ensures e.OtherChange? ==> t == s
    ensures e.RadioChange? ==> Get(t, e.index) == (if e.value == "" then DefaultOption else e.value)
    ensures e.RadioChange? ==> t.persisted == Some(t.state)
    ensures e.RadioChange? ==> t.state.Keys == s.state.Keys + {e.index}
    ensures e.RadioChange? ==> forall j :: j in s.state && j != e.index ==> t.state[j] == s.state[j]
    ensures e.RadioChange? ==> forall j :: j != e.index ==> Get(t, j) == Get(s, j)
  {
    match e
    case RadioChange(i, v) => Set(s, i, v)
    case OtherChange => s
  }

  /** After a change of row `i`, row `i` reads the new value (the default if
      the value is empty) and every other row reads what it read before. */
  lemma GetAfterSet(s: Store, i: int, v: string, j: int)
    ensures Get(Set(s, i, v), j) == if j == i then (if v == "" then DefaultOption else v) else Get(s, j)
  {
  }

  /** Writing through keeps the persisted copy consistent with memory. */
  lemma SetKeepsConsistent(s: Store, i: int, v: string)
    ensures Consistent(Set(s, i, v))
  {
  }

  /** A change made from a rendered radio keeps the store valid. */
  lemma SetKeepsValid(s: Store, i: int, v: string)
    requires Valid(s)
    requires 1 <= i <= Window.TotalRows && v in Options
    ensures Valid(Set(s, i, v))
  {
  }

  /** A reload reads back exactly what memory held, for any consistent store. */
  lemma ReloadRoundTrip(s: Store)
    requires Consistent(s)
    ensures Load(s.persisted).state == s.state
    ensures forall i :: Get(Load(s.persisted), i) == Get(s, i)
  {
  }

  /** Selecting option 2 in row 5 survives a reload. */
  lemma ReloadAfterChangeScenario(s: Store)
    ensures Get(Load(Set(s, 5, "2").persisted), 5) == "2"
  {
  }

  /** After a reset every row reads the default option. */
  lemma ClearReadsDefault(s: Store, i: int)
    ensures Get(Clear(s), i) == DefaultOption
  {
  }

  /** Resetting twice is the same as resetting once, and a reload after a
      reset starts from the empty map. */
  lemma ClearIdempotent(s: Store)
    ensures Clear(Clear(s)) == Clear(s)
    ensures Load(Clear(s).persisted) == Clear(s)
  {
  }

  /** A row that was never written reads the default option. */
  lemma NeverWrittenReadsDefault(blob: Option<map<int, string>>, i: int)
    requires blob.None? || i !in blob.value
    ensures Get(Load(blob), i) == DefaultOption
  {
  }
}

=== FILE: widget.dfy ===
/** The whole widget: scroll state, selection store and the rendered rows,
    driven by the page's events. */
module Widget {
  import Window
  import opened SelectionStore
  import opened Rows
  import opened Scroll
  import opened Wrappers

  /** The widget's state; `clientHeight` is the viewport's height. */
  datatype Widget = Widget(scroller: Scroller, store: Store, rows: seq<RowView>, clientHeight: int)

  /** The events the widget reacts to. `trackTarget` is the offset a track
      press asks for; `NativeScroll` is a scroll of the viewport by the wheel,
      the keyboard or the scrollbar thumb to `target`; `RenderFrame` is the
      render a scroll event schedules. */
  datatype Event =
    | MouseDownAt(x: int, y: int, rect: Rect, scrollbarWidth: int, trackTarget: int)
    | MouseUp
    | MouseLeave
    | Frame(delta: nat)
    | NativeScroll(target: int)
    | RenderFrame
    | Change(change: ChangeEvent)
    | ResetClick

  /** The rows of a render pass at `offset` under store `s`. */
  function RenderAt(offset: int, s: Store): (rows: seq<RowView>)
    ensures |rows| == Window.WindowAt(offset).Count()
    ensures forall k :: 0 <= k < |rows| ==> rows[k] == CreateRow(Window.WindowAt(offset).start + k, s)
    ensures forall k :: 0 <= k < |rows| ==>
              Window.WindowAt(offset).Contains(rows[k].index) && rows[k].selected == Get(s, rows[k].index)
  {
    var r := Window.WindowAt(offset);
    var rows := RowsFor(r, s);
    assert forall k :: 0 <= k < |rows| ==> rows[k] == CreateRow(r.start + k, s);
    rows
  }

  /** The rows on screen are exactly those of the current window and store. */
  predicate Rendered(w: Widget) {
    w.rows == RenderAt(w.scroller.offset, w.store)
  }

  /** The viewport fits the table, the offset is in its extent and the
      persisted copy mirrors memory. */
  predicate Inv(w: Widget) {
    0 <= w.clientHeight <= Window.TotalRows * Window.RowHeight &&
    InBounds(w.scroller, Window.MaxScroll(w.clientHeight)) &&
    Consistent(w.store)
  }

  /** Page load: read the persisted selections, start idle at the top, and
      render the first window. */
  function Mount(blob: Option<map<int, string>>, clientHeight: int): (w: Widget)
    ensures w.scroller == Scroller(0, Idle)
    ensures w.store.state == blob.GetOr(map[])
    ensures Rendered(w)
    ensures 0 <= clientHeight <= Window.TotalRows * Window.RowHeight ==> Inv(w)
  {
    var store := Load(blob);
    Widget(Scroller(0, Idle), store, RenderAt(0, store), clientHeight)
  }

  /** The widget's reaction to one event. */
  function Handle(w: Widget, e: Event): (v: Widget)
    ensures v.clientHeight == w.clientHeight
    ensures e.MouseDownAt? ==>
              v.scroller == MouseDown(w.scroller, Classify(e.x, e.y, e.rect, e.scrollbarWidth),
                                      e.trackTarget, Window.MaxScroll(w.clientHeight))
    ensures e.MouseUp? || e.MouseLeave? ==> v.scroller.session.Idle? && v.scroller.offset == w.scroller.offset
    ensures e.Frame? ==> v.scroller == Step(w.scroller, Window.MaxScroll(w.clientHeight), e.delta)
    ensures e.NativeScroll? ==>
              v.scroller.session == w.scroller.session &&
              v.scroller.offset == ClampOffset(e.target, Window.MaxScroll(w.clientHeight))
    ensures e.Frame? || e.NativeScroll? || e.MouseUp? || e.MouseLeave? || e.Change? ==> v.rows == w.rows
    ensures e.RenderFrame? || e.ResetClick? ==> v.scroller == w.scroller
    ensures e.RenderFrame? || e.ResetClick? ==> Rendered(v)
    ensures e.Change? ==> v.store == OnChange(w.store, e.change) && v.scroller == w.scroller
    ensures e.ResetClick? ==> v.store.state == map[] && v.store.persisted.None?
    ensures !e.Change? && !e.ResetClick? ==> v.store == w.store
  {
    var maxScroll := Window.MaxScroll(w.clientHeight);
    match e
    case MouseDownAt(x, y, rect, width, target) =>
      var hit := Classify(x, y, rect, width);
      var s := MouseDown(w.scroller, hit, target, maxScroll);
      if hit == Track then w.(scroller := s, rows := RenderAt(s.offset, w.store))
      else w.(scroller := s)
    case MouseUp => w.(scroller := Stop(w.scroller))
    case MouseLeave => w.(scroller := Stop(w.scroller))
    case Frame(delta) => w.(scroller := Step(w.scroller, maxScroll, delta))
    case NativeScroll(target) => w.(scroller := w.scroller.(offset := ClampOffset(target, maxScroll)))
    case RenderFrame => w.(rows := RenderAt(w.scroller.offset, w.store))
    case Change(c) => w.(store := OnChange(w.store, c))
    case ResetClick =>
      var store := Clear(w.store);
      w.(store := store, rows := RenderAt(w.scroller.offset, store))
  }

  /** Every event keeps the offset in the scrollable extent and the persisted
      copy consistent with memory. */
  lemma HandlePreservesInv(w: Widget, e: Event)
    requires Inv(w)
    ensures Inv(Handle(w, e))
  {
  }

  /** Every rendered row is a row of the table other than the last. */
  predicate RowsInTable(w: Widget) {
    forall k :: 0 <= k < |w.rows| ==> 1 <= w.rows[k].index < Window.TotalRows
  }

  /** A change event can only come from a radio of a rendered row, and it
      carries one of the three radio values. */
  predicate FromRenderedRadio(w: Widget, c: ChangeEvent) {
    c.RadioChange? ==>
      (exists k :: 0 <= k < |w.rows| && w.rows[k].index == c.index) && c.value in Options
  }

  /** Page load renders only rows of the table. */
  lemma MountRowsInTable(blob: Option<map<int, string>>, clientHeight: int)
    ensures RowsInTable(Mount(blob, clientHeight))
  {
  }

  /** As long as changes come from rendered radios, the store keeps only
      table rows as keys and radio values as values, and every rendered row
      stays a row of the table. */
  lemma HandleKeepsValid(w: Widget, e: Event)
    requires Valid(w.store) && RowsInTable(w)
    requires e.Change? ==> FromRenderedRadio(w, e.change)
    ensures Valid(Handle(w, e).store)
    ensures RowsInTable(Handle(w, e))
  {
  }

  /** A press on the track jumps and re-renders at once; a press on an arrow
      or the content leaves the rows as they were. */
  lemma MouseDownRenders(w: Widget, x: int, y: int, rect: Rect, width: int, target: int)
    ensures Classify(x, y, rect, width) == Track ==>
              Rendered(Handle(w, MouseDownAt(x, y, rect, width, target)))
    ensures Classify(x, y, rect, width) != Track ==>
              Handle(w, MouseDownAt(x, y, rect, width, target)).rows == w.rows
  {
  }

  /** A native scroll followed by the render it schedules shows the window of
      the new offset. */
  lemma NativeScrollThenRender(w: Widget, target: int)
    ensures Rendered(Handle(Handle(w, NativeScroll(target)), RenderFrame))
    ensures Handle(Handle(w, NativeScroll(target)), RenderFrame).scroller.offset ==
              ClampOffset(target, Window.MaxScroll(w.clientHeight))
  {
  }

  /** After a reset every rendered row shows the default option with its
      first radio checked. */
  lemma ResetShowsDefaults(w: Widget)
    ensures forall k :: 0 <= k < |Handle(w, ResetClick).rows| ==>
              Handle(w, ResetClick).rows[k].selected == DefaultOption &&
              Handle(w, ResetClick).rows[k].checked == [true, false, false]
  {
  }

  /** A change in row `i` alters the rendered view-model of row `i` only. */
  lemma ChangeAffectsOnlyItsRow(offset: int, s: Store, i: int, value: string)
    ensures |RenderAt(offset, Set(s, i, value))| == |RenderAt(offset, s)|
    ensures forall k :: 0 <= k < |RenderAt(offset, s)| && RenderAt(offset, s)[k].index != i ==>
              RenderAt(offset, Set(s, i, value))[k] == RenderAt(offset, s)[k]
  {
  }
}

=== FILE: window.dfy ===
/** The window calculator of the virtual list: which row indices are rendered
    for a given scroll offset, with the table's fixed configuration. */
module Window {

  /** Number of rows the table claims to hold (rows are numbered from 1). */
  const TotalRows: int := 10001
  /** Height of every row, in pixels. */
  const RowHeight: int := 40
  /** Rows that fit in the viewport. */
  const VisibleRows: int := 20
  /** Extra rows meant to be rendered around the viewport; `WindowAt` adds
      them above the first visible row only (see `WindowNoRowsBelow`). */
  const Buffer: int := 5
  /** Width of every `WindowAt` window that is not cut off by the last row. */
  const WindowSize: int := VisibleRows + Buffer
  /** Height of the viewport the constants describe: `VisibleRows` rows. */
  const ViewportHeight: int := VisibleRows * RowHeight

  /** A half-open range `[start, end)` of row indices. */
  datatype Range = Range(start: int, end: int) {

    /** Number of indices in the range (zero when `end <= start`). */
    function Count(): (n: nat)
      ensures n == 0 <==> end <= start
      ensures n > 0 ==> start + n == end
    {
      if start < end then end - start else 0
    }

    predicate Contains(i: int) {
      start <= i < end
    }
  }

  function Max(a: int, b: int): int { if a < b then b else a }
  function Min(a: int, b: int): int { if a < b then a else b }

  /** The topmost row on screen at `offset`: the one whose slot holds pixel
      `offset`, possibly only partly visible. Dafny's `/` on a
      positive divisor rounds toward negative infinity, as `Math.floor` does. */
  function FirstVisible(offset: int): int {
    offset / RowHeight
  }

  /** The largest scroll offset of a viewport `clientHeight` pixels high over
      the full virtual height `TotalRows * RowHeight` of the table. */
  function MaxScroll(clientHeight: int): int {
    TotalRows * RowHeight - clientHeight
  }

  /** The range rendered at scroll offset `offset`: `Buffer` rows before the
      first visible row, never before row 1, and `WindowSize` rows in all,
      never past the exclusive bound `TotalRows`. */
  function WindowAt(offset: int): (r: Range)
    ensures r.start >= 1
    ensures r.end <= TotalRows
    ensures r.start >= FirstVisible(offset) - Buffer
    ensures r.end - r.start <= WindowSize
  {
    var start := Max(1, FirstVisible(offset) - Buffer);
    Range(start, Min(TotalRows, start + WindowSize))
  }

  /** The indices the render loop visits, in order. */
  function Indices(r: Range): (s: seq<int>)
    ensures |s| == r.Count()
    ensures forall k :: 0 <= k < |s| ==> s[k] == r.start + k
  {
    seq(r.Count(), k => r.start + k)
  }

  /** The loop of the renderer that walks a range from `start` up to, but
      excluding, `end`. */
  method RenderIndices(r: Range) returns (s: seq<int>)
    ensures s == Indices(r)
    ensures forall k :: 0 <= k < |s| ==> r.Contains(s[k])
    ensures forall i :: r.Contains(i) ==> i in s
    ensures forall j, k :: 0 <= j < k < |s| ==> s[j] < s[k]
  {
    s := [];
    var i := r.start;
    while i < r.end
      invariant r.start <= i
      invariant i <= Max(r.start, r.end)
      invariant |s| == i - r.start
      invariant forall k :: 0 <= k < |s| ==> s[k] == r.start + k
    {
      s := s + [i];
      i := i + 1;
    }
    assert |s| == r.Count();
    forall j | r.Contains(j)
      ensures j in s
    {
      assert s[j - r.start] == j;
    }
  }

  /** The window is exactly `WindowSize` wide unless the table's end cuts it. */
  lemma WindowFullWidth(offset: int)
    requires WindowAt(offset).start + WindowSize <= TotalRows
    ensures WindowAt(offset).Count() == WindowSize
  {
  }

  /** The window is never empty for an offset inside the scrollable extent. */
  lemma WindowNonEmpty(offset: int)
    requires offset <= TotalRows * RowHeight
    ensures WindowAt(offset).start < WindowAt(offset).end
  {
  }

  /** Rows that are visible at `offset` (a full viewport starting at the first
      visible row, clipped to the rows that exist) are always rendered. */
  lemma WindowCoversVisible(offset: int, i: int)
    requires Max(1, FirstVisible(offset)) <= i < Min(FirstVisible(offset) + VisibleRows, TotalRows)
    ensures WindowAt(offset).Contains(i)
  {
  }

  /** Scrolling further down never moves either bound of the window up. */
  lemma WindowMonotone(a: int, b: int)
    requires a <= b
    ensures WindowAt(a).start <= WindowAt(b).start
    ensures WindowAt(a).end <= WindowAt(b).end
  {
  }

  /** Row `TotalRows` itself is never rendered: the exclusive bound is clamped
      to `TotalRows`, not to `TotalRows + 1`. */
  lemma LastRowNeverRendered(offset: int)
    ensures !WindowAt(offset).Contains(TotalRows)
    ensures forall i :: WindowAt(offset).Contains(i) ==> 1 <= i < TotalRows
  {
  }

  /** At the top of the list rows 1 to 25 are rendered. */
  lemma WindowAtTop()
    ensures WindowAt(0) == Range(1, 26)
  {
  }

  /** With row 100 at the top, rows 95 to 119 are rendered. */
  lemma WindowAtRow100()
    ensures WindowAt(4000) == Range(95, 120)
  {
  }

  /** Scrolled to the end of a viewport of `VisibleRows` rows, the window is
      cut off at the exclusive bound `TotalRows`. */
  lemma WindowAtBottom()
    ensures WindowAt(MaxScroll(ViewportHeight)) == Range(9976, TotalRows)
  {
  }

  /** At the largest offset of any viewport no taller than `VisibleRows` rows,
      the window reaches the last renderable row `TotalRows - 1`. */
  lemma BottomReachable(clientHeight: int)
    requires 0 <= clientHeight <= ViewportHeight
    ensures WindowAt(MaxScroll(clientHeight)).end == TotalRows
    ensures WindowAt(MaxScroll(clientHeight)).Contains(TotalRows - 1)
  {
  }

  /** As written, no buffer row follows the viewport: away from both ends of
      the table the window stops right after the `VisibleRows` rows that
      start at the first visible row. */
  lemma WindowNoRowsBelow(offset: int)
    requires Buffer + 1 <= FirstVisible(offset) <= TotalRows - WindowSize
    ensures WindowAt(offset).end == FirstVisible(offset) + VisibleRows
  {
  }

  /** At offset 4020 row 120 shows its top half at the bottom of a
      `VisibleRows`-row viewport, yet `WindowAt` does not render it. */
  lemma WindowMissesPartlyVisibleRow()
    ensures 120 * RowHeight < 4020 + ViewportHeight
    ensures 4020 < 120 * RowHeight + RowHeight
    ensures !WindowAt(4020).Contains(120)
  {
  }

  /** The window with `Buffer` rows on both sides of the viewport: the same
      start as `WindowAt`, and `Buffer` more rows at the end, still clamped to
      the exclusive bound `TotalRows`. */
  function BufferedWindowAt(offset: int): (r: Range)
    ensures r.start == WindowAt(offset).start
    ensures WindowAt(offset).end <= r.end <= TotalRows
    ensures r.end - r.start <= VisibleRows + 2 * Buffer
  {
    var start := Max(1, FirstVisible(offset) - Buffer);
    Range(start, Min(TotalRows, start + VisibleRows + 2 * Buffer))
  }

  /** Every existing row that overlaps a `VisibleRows`-row viewport at
      `offset`, partly or fully, is in the buffered window. */
  lemma BufferedWindowCoversViewport(offset: int, i: int)
    requires 1 <= i < TotalRows
    requires i * RowHeight < offset + ViewportHeight
    requires offset < i * RowHeight + RowHeight
    ensures BufferedWindowAt(offset).Contains(i)
  {
  }

  /** The buffered window reaches `Buffer` rows past the `VisibleRows` rows
      that start at the first visible row, unless the table ends first. */
  lemma BufferedWindowBelow(offset: int)
    ensures BufferedWindowAt(offset).end >= Min(TotalRows, FirstVisible(offset) + VisibleRows + Buffer)
  {
  }

  /** At offset 4020 the buffered window does render row 120. */
  lemma BufferedWindowAt4020()
    ensures BufferedWindowAt(4020) == Range(95, 125)
    ensures BufferedWindowAt(4020).Contains(120)
  {
  }
}

=== FILE: wrappers.dfy ===
/** The optional value used for the persisted selection blob, which is either
    present or removed. */
module Wrappers {

  datatype Option<+T> = None | Some(value: T) {

    /** The wrapped value, or `default` when there is none. */
    function GetOr(default: T): (r: T)
      ensures Some? ==> r == value
      ensures None? ==> r == default
    {
      match this
      case Some(v) => v
      case None => default
    }
  }
}
